=== FILE: README.md ===
# Flume workflow engine — a Dafny model

This project models the run engine of the flume visual-workflow runtime
(`src/WorkflowEngine.js`) and the default key/value store it persists runs to
(`src/LocalStorage.js`). A workflow is a graph of typed nodes. Input ports are
wired to upstream output ports, and named routes are wired to successor nodes.
The engine resolves a node's inputs by pulling values recursively through the
graph, runs the node's activity, and follows the route the activity chooses.
An activity may suspend the run, which is then persisted under a run key and
later resumed with a value.

Modules, one per part of the engine:

- `Base` (`base.dfy`): `Option`, `Result`, and the JavaScript values that flow
  between nodes (with JavaScript truthiness, used for `x || {}`).
- `LoopGuard` (`loop_guard.dfy`): the `loops`/`maxLoops` guard, its reset, and
  the loop error with code 1.
- `LocalStorage` (`local_storage.dfy`): the store, a map from key to record.
- `Tags` (`tags.dfy`): the tag list behind the control handle's
  `addTag`/`removeTag`/`hasTag`.
- `Workflow` (`workflow.dfy`): nodes, wiring, node types, the host
  application's callbacks, the run state, the errors, and the root-node lookup.
- `Resolver` (`resolver.dfy`): the route filter, input resolution
  (`resolveInputValues`) and the connection pull (`getValueOfConnection`).
- `Traversal` (`traversal.dfy`): `pause`, the routing decision, one traversal
  step, and the step loop of `iterateNodes`.
- `Controller` (`controller.dfy`): `start`, `play`, `resume` and `stop`.
- `GuardFinding` (`guard_finding.dfy`): the concrete graph behind the finding
  below.

The engine object's mutable fields are passed explicitly. Every operation
takes the loop guard and the store and returns them as it left them. The
guard is returned even when an error is raised, because the source keeps it
on the engine instance. The host callbacks are function-valued fields of
`Host`: `resolveInputControls`, `fireNodeFunction`, `executeActivity`, plus
the node-type registry. In the source, an activity signals suspension by
calling `pause` on its control handle during its run. Here it returns an
`Activity` value instead, with effect `Continue(route)` or
`Suspend(returnVariable)`. That value also holds the node's and the run's
variables as the activity left them, and the tag operations it issued. Thrown
exceptions become `EngineError`. Three kinds of JavaScript `TypeError` are
modelled: a missing node or node type becomes `MissingNode` or
`MissingNodeType`, and reading `state.currentNode.id` when a stored run has no
current node (lines 204 and 288) becomes `NoCurrentNode`. The other
`TypeError`s the source can raise, and exceptions thrown by the host's
callbacks, are listed under "Left out". The lifecycle operations' logged soft
failures become `SoftError`.

Behaviours of the code that the model keeps as written:

- The route filter keeps connections from the previous node. It drops input
  connections from the other nodes that route control into the node.
- `resume` returns the state object it loaded, as traversal left it. It does
  not return the traversal's result, so a finished run still returns a state.
- The activity is offered `Object.keys(outputs)` as its available routes. For
  computed outputs that is the key list of a function, which is empty.
- `play` does the root lookup even when it resumes, so a graph with two roots
  fails in `play` either way.
- `play` on a run that is not paused writes `null` into the current node's
  return slot, under the property name `"undefined"` when no return variable
  was recorded.
- `getValueOfConnection` resets the loop guard after every pull, nested pulls
  included. `Controller.NewEngine` is the constructor's engine with this
  policy. The loop error exists to stop cyclic data pulls, and this policy can
  defeat it (see Findings). `Controller.GuardedEngine` resets only after a
  top-level pull, so the ceiling bounds one chain of nested pulls. Both
  policies are values of `Resolver.GuardReset`.

## Model

| member | source | states |
|---|---|---|
| `Base.OrEmptyObject` | src/WorkflowEngine.js:79 | `inputData[name] \|\| {}` is always truthy, keeps a truthy value, and replaces a falsy one by `{}` |
| `LoopGuard.ResetLoops` | src/WorkflowEngine.js:22-25 | a reset opens a fresh window (counter 0); the ceiling is the given one, or 1000 when none is given |
| `LoopGuard.CheckLoops` | src/WorkflowEngine.js:26-35 | the check raises exactly when the ceiling is non-negative and the counter has passed it, always with code 1; otherwise it adds one to the counter and keeps the ceiling |
| `LoopGuard.GuardWindow` | src/WorkflowEngine.js:26-35 | `n` checks in a row all pass exactly when the ceiling is negative or the counter ends at most one past the ceiling; the counter then stands `n` higher; a failure carries code 1 |
| `LoopGuard.NegativeCeilingNeverRaises` | src/WorkflowEngine.js:27 | a negative ceiling turns the guard off: any number of checks pass |
| `LoopGuard.DefaultWindowIsCeilingPlusOne` | src/WorkflowEngine.js:19-35 | after `resetLoops()` exactly 1001 pulls pass and the 1002nd raises |
| `LocalStorage.GetItem` | src/LocalStorage.js:8-10 | a key never set, or removed, reads back as `null`; a stored key reads back its record |
| `LocalStorage.SetItem` | src/LocalStorage.js:5-7 | after a write the key reads back the value written, whatever it held before (so a second write overwrites the first); every other key reads back as before |
| `LocalStorage.RemoveItem` | src/LocalStorage.js:11-13 | after removal the key reads back `null`; every other key reads back as before |
| `Tags.AddTag` | src/WorkflowEngine.js:150 | `addTag` appends the tag at the end, keeping the earlier tags in place, and `hasTag` then holds |
| `Tags.RemoveTag` | src/WorkflowEngine.js:151-152 | after `removeTag(t)` `hasTag(t)` is false, every other tag is present exactly when it was before, and a list without `t` is unchanged |
| `Tags.RemoveTagCounts` | src/WorkflowEngine.js:151 | `removeTag(t)` drops every occurrence of `t` and keeps every other tag as many times as it occurred |
| `Tags.RemoveTagKeepsOrder` | src/WorkflowEngine.js:151 | `removeTag` distributes over concatenation, so the remaining tags keep their order |
| `Tags.RemoveUndoesAdd` | src/WorkflowEngine.js:150-151 | adding a tag and then removing it gives the same list as removing it straight away |
| `Tags.ApplyTagOps` | src/WorkflowEngine.js:150-151 | after an activity's tag operations, every tag present was present before or was added by one of them |
| `Workflow.EnsureLocals` | src/WorkflowEngine.js:99 | a node's local-variable scope is created empty only when missing; an existing scope (even an empty one) and every other part of the run state are kept |
| `Workflow.FreshState` | src/WorkflowEngine.js:236 | a new run is `running`, at no node yet, with no variables and no tags |
| `Workflow.GetRootNode` | src/WorkflowEngine.js:36-44 | the lookup raises exactly when more than one node is flagged root; otherwise it returns the only root node, or nothing exactly when no node is flagged root |
| `Resolver.BlockedIds` | src/WorkflowEngine.js:63-65 | the filter list holds exactly the sources of the node's `route` input connections other than the previous node |
| `Resolver.Surviving` | src/WorkflowEngine.js:67 | a connection survives exactly when it is an input connection whose source is not in the filter list |
| `Resolver.SurvivingInputs` | src/WorkflowEngine.js:63-67 | an input connection is dropped exactly when its source also routes control into the node and is not the previous node; connections from the previous node, and from sources outside the route list, are kept |
| `Resolver.FirstSurvivor` | src/WorkflowEngine.js:66-69 | a port reads only from the earliest connection the filter keeps (every earlier one is dropped), and has no connection exactly when the filter drops all of them |
| `Resolver.PortNames` | src/WorkflowEngine.js:66 | the names of the declared ports, each declared port's name among them |
| `Resolver.Pull` | src/WorkflowEngine.js:87-117 | a completed pull changes the run state only by creating empty local-variable scopes for nodes that had none; under the source's policy, or at top level, it leaves a fresh guard (counter 0, ceiling 1000); a nested pull under the top-level policy keeps the ceiling and raises the counter; a loop error carries code 1 |
| `Resolver.PullValue` | src/WorkflowEngine.js:87-117 | a completed pull returns the connected output port (`connection.portName`) of `fireNodeFunction` applied to the node the connection names, its node type, exactly the values resolving that node's inputs produced (one per declared input port, lines 91-97), and a context holding the node's local-variable scope as the pull leaves it (created empty at line 99 when missing); a pull naming a missing node or node type never completes |
| `Resolver.ResolveInputs` | src/WorkflowEngine.js:45-86 | input resolution yields exactly one entry per declared input name (static or computed list) and changes the run state only by creating empty scopes |
| `Resolver.ResolvePort` | src/WorkflowEngine.js:67-83 | one port adds exactly its own name and leaves the other entries alone; the run state changes only by new empty scopes; a nested pull under the top-level policy keeps the ceiling and never lowers the counter |
| `Resolver.ResolvePorts` | src/WorkflowEngine.js:66-85 | the port loop adds exactly the declared names to what it is given, leaves other entries alone, changes the run state only by new empty scopes, and under the top-level policy never lowers the counter or changes the ceiling of nested pulls |
| `Resolver.ResolvePortsSplit` | src/WorkflowEngine.js:66-84 | ports are resolved strictly in order: the loop over a list is the loop over its first `i` ports followed by the loop over the rest, from the guard and state the first part left; an error ends it |
| `Resolver.ConnectedPortsUsePull` | src/WorkflowEngine.js:67-75 | a port with a surviving connection gets the value pulled from its first survivor (`inputConnections[0]`), with the guard and run state the earlier ports left; the last declaration of a name wins |
| `Resolver.UnconnectedPortsUseControls` | src/WorkflowEngine.js:76-83 | a port whose input connections are all dropped (or that has none) gets `resolveInputControls(type, inputData[name] \|\| {}, context)`; the last declaration of a name wins |
| `Resolver.PullBounded` | src/WorkflowEngine.js:87-117 | under the top-level policy with a non-negative ceiling, a pull given as much depth as the guard's window never needs more: it returns a value or raises an error of the source |
| `Resolver.ResolveInputsBounded` | src/WorkflowEngine.js:45-86 | the same bound for the nested input resolution of a pull |
| `Resolver.ResolvePortsBounded` | src/WorkflowEngine.js:66-85 | the same bound for the port loop of a nested resolution |
| `GuardFinding.NestedResetDefeatsGuard` | src/WorkflowEngine.js:113 | as written, for the engine `Controller.NewEngine` builds: on a node fed by a leaf and by its own output, a pull from a fresh guard never raises the loop error at any depth |
| `GuardFinding.TopLevelResetCatchesCycle` | src/WorkflowEngine.js:87-117 | for the engine `Controller.GuardedEngine` builds, which resets after top-level pulls only, the same graph raises the loop error with code 1 |
| `Traversal.Pause` | src/WorkflowEngine.js:257-268 | `pause(null, v)` reports "not started" and writes nothing; otherwise the state becomes `paused` with return variable `v` and is stored under the run key, other keys untouched |
| `Traversal.ApplyActivity` | src/WorkflowEngine.js:136-154 | an activity writes only its own node's local variables, the globals and the tags; it does not move the run |
| `Traversal.Route` | src/WorkflowEngine.js:163-187 | the step advances exactly when the selected route (the route the activity named, or `'route'` when it named none or an empty one, as `execRet.route` is falsy then) has exactly one connection, setting previous node to the old current node and current node to the target's `{id, type}`; the target's scope is emptied only if it existed, and no other scope, global or tag changes; otherwise the traversal ends with the state unchanged |
| `Traversal.Step` | src/WorkflowEngine.js:119-188 | a suspending activity leaves current and previous node as they were and the paused state is what is stored; every other step writes nothing to the store |
| `Traversal.Iterate` | src/WorkflowEngine.js:119-190 | a traversal writes to the store only when it suspends, and then stores exactly the paused state it returns |
| `Controller.NewMachine` | src/WorkflowEngine.js:8-21 | a new engine starts with loops 0, ceiling 1000, and an empty default store when none is supplied |
| `Controller.LookupRoot` | src/WorkflowEngine.js:238-240 | a non-empty `rootNodeId` names the root directly (nothing when it is not a node, and never an error); a missing or empty one (both falsy) takes the root from the root-flag lookup, with its error |
| `Controller.ResumeEntry` | src/WorkflowEngine.js:286-293 | a resumed run is `running` with the supplied value in the current node's return variable; the node's scope gains only that variable (a missing scope is created holding just it), no other variable and no other part of the state changes |
| `Controller.Conclude` | src/WorkflowEngine.js:250-254 | after a finished traversal the run's key reads `null` and the reply is `null`; after a suspension the reply is the suspended state and the store is as traversal left it; an error is passed on with that store; the guard and every other key are as traversal left them |
| `Controller.Start` | src/WorkflowEngine.js:231-255 | on a key already in the store `start` refuses and touches nothing; two roots raise, no root is a soft failure; a finished run leaves no record; a suspended one is stored as returned; other keys are untouched |
| `Controller.Stop` | src/WorkflowEngine.js:270-272 | `stop` removes the run's record whatever its state and touches nothing else |
| `Controller.Resume` | src/WorkflowEngine.js:274-300 | with no record `resume` reports "no state", with a record not paused it reports "not paused", both without writes; otherwise it returns the traversal's final state, which is stored exactly when paused again and removed otherwise |
| `Controller.Play` | src/WorkflowEngine.js:192-229 | two roots raise even when resuming; a finished run leaves no record; a suspended one is stored as returned; other keys are untouched |
| `Controller.StartIsSingleFlight` | src/WorkflowEngine.js:231-235 | once a run has suspended, starting it again is refused and changes nothing |
| `Controller.PauseThenResume` | src/WorkflowEngine.js:257-299 | after `pause(state, v)`, `resume(x)` re-enters traversal at the recorded node, running, with `localVars[node][v] = x` and the other fields as paused, and returns the state that traversal ends with |
| `Controller.PlayStartsFreshRun` | src/WorkflowEngine.js:192-224 | `play` on a key with no record traverses from the same fresh state at the root as `start`, except that the root's scope holds `null` under `"undefined"` |
| `Controller.PlayResumesPausedRun` | src/WorkflowEngine.js:192-229 | `play` on a paused record continues it as `resume` with `options.returnValue` does: same traversal, guard and store; its reply is `resume`'s when the run paused again and `null` when it finished |
| `Controller.StopThenResume` | src/WorkflowEngine.js:270-283 | after `stop`, `resume` finds nothing to resume |

## Left out

- JSON serialisation is not modelled. The store holds records as written. This
  treats the JSON round trip as the identity, which does not hold for
  `undefined` fields (JSON drops them). `ObjectStorageWrapper` is not part of
  this model.
- `async`/`await` and `isPromise` are not modelled. Every callback and storage
  operation is synchronous, so pending values are already resolved.
- `console.error` diagnostics are replaced by the `SoftError` a call returns.
- The host callbacks are uninterpreted. `resolveInputControls`,
  `fireNodeFunction` and the computed input and output lists are pure: the
  in-place writes they could make through the context object are not
  modelled.
- An activity's writes to its variables and tags are taken to happen before
  it suspends. In the source, writes after its `pause` call would miss the
  stored copy. The handle's `resume` (re-entering the engine from inside an
  activity) is not modelled.
- `Traversal.AvailableRoutes`: the activity receives the route names as a
  set, not the ordered `Object.keys(outputs)` array. The wiring is a map, so
  the insertion order of the outputs object is not modelled.
- Computed input and output lists receive the node's input wiring, not its
  whole `connections` object. This keeps the node datatype from recursing
  through a function type.
- When the selected route's target is missing, the source sets `previousNode`
  before it throws. The model raises `MissingNode` without that write. The
  in-memory state is abandoned either way.
- Some `TypeError`s of the source cannot arise, because the model's records
  always have these parts. Line 67 reads `node.connections.inputs` without
  the guard line 63 gives it; line 79 reads `node.inputData` when it may be
  missing; line 115 reads a port of a `fireNodeFunction` result that may be
  `undefined` or `null`; line 146 may call `Object.keys(undefined)`. Here
  every node has input wiring, input data and outputs, and
  `fireNodeFunction` always returns a map, so reading a port it lacks gives
  `undefined`.
- Two more `TypeError`s cannot arise for the same reason. Line 66 iterates
  `inputs`, which throws when the node type has no `inputs` or a computed
  list is not iterable; here a node type always has a port list and a
  computed list is always a sequence. Line 175 indexes `outputs`, which
  throws when computed outputs return `undefined`; here they always return
  a map.
- Exceptions thrown by the host's callbacks (`resolveInputControls`,
  `fireNodeFunction`, `executeActivity`, computed input and output lists)
  are not modelled. The source lets them propagate out of `start`, `play` or
  `resume` unchanged; here the callbacks are total functions and always
  return.
- The store, the node map, the input wiring and the output routes are Dafny
  maps, while the source uses plain JavaScript objects that inherit
  `Object.prototype`. Keys, port names and route names are assumed not to be
  names of its members (`toString`, `constructor`, `__proto__` and the
  like). Otherwise the source differs: `getItem("toString")` on a fresh
  store finds the inherited function and `JSON.parse` throws, so `start`
  with that key throws where the model starts a run; `setItem("__proto__",
  v)` is lost and a later `getItem` throws, so the `SetItem` round trip does
  not hold; a port named `constructor` makes line 67 call `filter` on a
  function and throw, where the model uses the control value; a route named
  `constructor` passes the length test of line 175 and line 178 throws,
  where the model ends the traversal.
- Numbers are integers. Floating point and `NaN` are not modelled.
- Concurrency between engines sharing a key is not modelled.
- `Traversal.Iterate` takes a step budget (`Engine.stepFuel`), because the
  control graph may cycle. `Resolver.Pull` takes a depth budget
  (`Engine.pullDepth`), because as written a pull can recurse forever.
  Running out of either gives `FuelExhausted`, which the source cannot raise.
  `Resolver.PullBounded` shows how much depth suffices under the top-level
  policy.
- The React text input component and the babel polyfill import are not part
  of this model.
- `Traversal.Step`: does not state which effect the activity returned,
  because its outcome is uninterpreted. `Traversal.Route` states the routing
  decision in full.
- `Tags.ApplyTagOps`: states only that tags are never invented. The effect of
  each operation is stated by `Tags.AddTag` and `Tags.RemoveTag`.

## Findings

| source | as written | input that shows it | evidently intended | confidence | as-written member | corrected member |
|---|---|---|---|---|---|---|
| src/WorkflowEngine.js:113 | `resetLoops()` runs at the end of every `getValueOfConnection`, nested pulls included, so a completed nested pull resets the counter for its siblings and ancestors | node `x` with input `a` wired to a leaf node and input `b` wired to `x`'s own output: each leaf pull resets the counter before `x` is pulled again, the counter never exceeds 2, and the pull recursion never ends instead of raising the loop error | the guard gets a fresh window only after a top-level pull completes, so its ceiling bounds one chain of nested pulls and the cyclic dependency raises the loop error (code 1) | high; not executed | `GuardFinding.NestedResetDefeatsGuard` | `GuardFinding.TopLevelResetCatchesCycle` |

=== FILE: base.dfy ===
/** Shared building blocks: optional values, results, and the JavaScript values
    that flow between nodes and live in a run's variables. */
module Base {

  /** A value that may be absent (JavaScript `null`/`undefined` as a return). */
  datatype Option<T> = None | Some(value: T)

  /** Either a value or an error (a thrown exception in the source). */
  datatype Result<T, E> = Ok(value: T) | Err(error: E)

  /** A plain JavaScript value. Numbers are modelled as integers. */
  datatype Value =
    | Undefined
    | Null
    | Bool(b: bool)
    | Num(n: int)
    | Str(s: string)
    | Arr(items: seq<Value>)
    | Obj(fields: map<string, Value>)

  /** JavaScript truthiness (`ToBoolean`) for the values above. */
  predicate Truthy(v: Value) {
    match v
    case Undefined => false
    case Null => false
    case Bool(b) => b
    case Num(n) => n != 0
    case Str(s) => s != ""
    case Arr(_) => true
    case Obj(_) => true
  }

  const EmptyObject: Value := Obj(map[])

  /** Property read `o[k]`: `undefined` when the property is missing. */
  function Get(o: map<string, Value>, k: string): Value {
    if k in o then o[k] else Undefined
  }

  /** The expression `v || {}`. */
  function OrEmptyObject(v: Value): (r: Value)
    ensures Truthy(r)
    ensures Truthy(v) ==> r == v
    ensures !Truthy(v) ==> r == EmptyObject
  {
    if Truthy(v) then v else EmptyObject
  }
}

=== FILE: controller.dfy ===
/** The run controller: the engine's public lifecycle operations over the one
    storage key of a run. */
module Controller {
  import opened Base
  import opened LoopGuard
  import opened LocalStorage
  import opened Workflow
  import opened Resolver
  import opened Traversal

  /** The engine's fixed configuration: the run key, the host, the guard
      policy, and the model's bounds on traversal steps and pull depth. */
  datatype Engine = Engine(key: string, host: Host, reset: GuardReset, stepFuel: nat, pullDepth: nat)

  /** The engine's mutable parts: the loop guard and the store. */
  datatype Machine = Machine(guard: Guard, store: Store<RunState>)

  /** The caller's options: ambient context, an optional root-node override,
      and the value `play` hands a paused run. */
  datatype Options = Options(context: Value, rootNodeId: Option<string>, returnValue: Value)

  /** What a lifecycle call returns: a run state or `null`, or a soft refusal. */
  datatype Reply = Returned(state: Option<RunState>) | Refused(reason: SoftError)

  datatype Call = Call(machine: Machine, reply: Result<Reply, EngineError>)

  /** The constructor's engine: the guard gets a fresh window after every
      pull, nested ones included. */
  function NewEngine(key: string, host: Host, stepFuel: nat, pullDepth: nat): Engine {
    Engine(key, host, ResetAfterEveryPull, stepFuel, pullDepth)
  }

  /** The same engine with the guard reset only after top-level pulls, so that
      its ceiling bounds one chain of nested pulls. */
  function GuardedEngine(key: string, host: Host, stepFuel: nat, pullDepth: nat): Engine {
    Engine(key, host, ResetAfterTopLevelPull, stepFuel, pullDepth)
  }

  /** The constructor's state: a fresh guard, and the given store or an empty
      default one. */
  function NewMachine(storage: Option<Store<RunState>>): (m: Machine)
    ensures m.guard == InitialGuard
    ensures storage.None? ==> forall k :: GetItem(m.store, k) == None
  {
    Machine(InitialGuard, if storage.Some? then storage.value else map[])
  }

  function EnvOf(eng: Engine, nodes: map<string, Node>, opts: Options): Env {
    Env(eng.host, nodes, opts.context, eng.reset)
  }

  /** The root node: the explicit override when one is given (which need not
      be flagged root, and may be missing), else the node flagged root. */
  function LookupRoot(nodes: map<string, Node>, opts: Options): (r: Result<Option<Node>, EngineError>)
    ensures opts.rootNodeId.None? || opts.rootNodeId.value == "" ==> r == GetRootNode(nodes)
    ensures opts.rootNodeId.Some? && opts.rootNodeId.value != "" ==>
      r.Ok? && (r.value.Some? <==> opts.rootNodeId.value in nodes)
      && (r.value.Some? ==> r.value.value == nodes[opts.rootNodeId.value])
  {
    match opts.rootNodeId
    case Some(id) =>
      if id == "" then GetRootNode(nodes)
      else Ok(if id in nodes then Some(nodes[id]) else None)
    case None => GetRootNode(nodes)
  }

  /** The key a resumed value is stored under: the recorded return variable,
      or the property name `"undefined"` when none was recorded. */
  function ReturnSlot(st: RunState): string {
    match st.returnVariable
    case Some(v) => v
    case None => "undefined"
  }

  /** The state a paused run re-enters traversal with: running again, with the
      supplied value in the current node's return variable and nothing else
      changed. */
  function ResumeEntry(stored: RunState, id: string, value: Value): (r: RunState)
    ensures r.status == Running
    ensures id in r.localVars && ReturnSlot(stored) in r.localVars[id]
    ensures r.localVars[id][ReturnSlot(stored)] == value
    ensures r == stored.(status := Running, localVars := r.localVars)
    ensures r.localVars.Keys == stored.localVars.Keys + {id}
    ensures forall k :: k in stored.localVars && k != id ==> r.localVars[k] == stored.localVars[k]
    ensures r.localVars[id].Keys
      == (if id in stored.localVars then stored.localVars[id].Keys else {}) + {ReturnSlot(stored)}
    ensures forall n :: id in stored.localVars && n in stored.localVars[id] && n != ReturnSlot(stored) ==>
      n in r.localVars[id] && r.localVars[id][n] == stored.localVars[id][n]
  {
    var st := EnsureLocals(stored, id);
    st.(status := Running, localVars := st.localVars[id := st.localVars[id][ReturnSlot(stored) := value]])
  }

  function Traverse(eng: Engine, m: Machine, nodes: map<string, Node>, opts: Options, st: RunState, node: Node)
    : Ran
  {
    Iterate(EnvOf(eng, nodes, opts), eng.key, m.guard, m.store, st, node, eng.stepFuel, eng.pullDepth)
  }

  /** The bookkeeping after a traversal shared by `start` and `play`: a
      finished run is removed from the store and `null` returned; a suspended
      run is already persisted and its state returned. */
  function Conclude(key: string, r: Ran): (c: Call)
    ensures c.machine.guard == r.guard
    ensures r.result.Err? ==> c.reply == Err(r.result.error) && c.machine.store == r.store
    ensures r.result.Ok? && r.result.value.Finished? ==>
      c.reply == Ok(Returned(None)) && GetItem(c.machine.store, key) == None
    ensures r.result.Ok? && r.result.value.Suspended? ==>
      c.reply == Ok(Returned(Some(r.result.value.state))) && c.machine.store == r.store
    ensures forall k :: k != key ==> GetItem(c.machine.store, k) == GetItem(r.store, k)
  {
    match r.result
    case Err(e) => Call(Machine(r.guard, r.store), Err(e))
    case Ok(Finished(_)) => Call(Machine(r.guard, RemoveItem(r.store, key)), Ok(Returned(None)))
    case Ok(Suspended(s)) => Call(Machine(r.guard, r.store), Ok(Returned(Some(s))))
  }

  /** `start(nodes, options)`: a run key is a single-flight slot; a new run
      starts at the root node, and is removed from the store when it finishes. */
  function Start(eng: Engine, m: Machine, nodes: map<string, Node>, opts: Options): (c: Call)
    ensures GetItem(m.store, eng.key).Some? ==> c == Call(m, Ok(Refused(AlreadyStarted)))
    ensures GetItem(m.store, eng.key).None? && opts.rootNodeId.None? && |RootKeys(nodes)| > 1 ==>
      c == Call(m, Err(MultipleRoots))
    ensures GetItem(m.store, eng.key).None? && opts.rootNodeId.None? && RootKeys(nodes) == {} ==>
      c == Call(m, Ok(Refused(NoRoot)))
    ensures c.reply == Ok(Returned(None)) ==> GetItem(c.machine.store, eng.key) == None
    ensures c.reply.Ok? && c.reply.value.Returned? && c.reply.value.state.Some? ==>
      GetItem(c.machine.store, eng.key) == c.reply.value.state && c.reply.value.state.value.status == Paused
    ensures c.reply.Err? ==> c.machine.store == m.store
    ensures forall k :: k != eng.key ==> GetItem(c.machine.store, k) == GetItem(m.store, k)
  {
    if GetItem(m.store, eng.key).Some? then Call(m, Ok(Refused(AlreadyStarted)))
    else
      match LookupRoot(nodes, opts)
      case Err(e) => Call(m, Err(e))
      case Ok(None) => Call(m, Ok(Refused(NoRoot)))
      case Ok(Some(root)) =>
        var st := FreshState(eng.key).(currentNode := Some(Ref(root)));
        Conclude(eng.key, Traverse(eng, m, nodes, opts, st, root))
  }

  /** `stop()`: removes the run's record, whatever state it is in. */
  function Stop(eng: Engine, m: Machine): (m': Machine)
    ensures GetItem(m'.store, eng.key) == None
    ensures forall k :: k != eng.key ==> GetItem(m'.store, k) == GetItem(m.store, k)
    ensures m'.guard == m.guard
  {
    m.(store := RemoveItem(m.store, eng.key))
  }

  /** `resume(returnValue, nodes, options)`: only a persisted, paused run is
      resumed; it continues from its recorded current node with the value in
      its return variable. It returns the run state as traversal left it, even
      when the run finished and its record was removed. */
  function Resume(eng: Engine, m: Machine, value: Value, nodes: map<string, Node>, opts: Options): (c: Call)
    ensures GetItem(m.store, eng.key).None? ==> c == Call(m, Ok(Refused(NoState)))
    ensures GetItem(m.store, eng.key).Some? && m.store[eng.key].status != Paused ==>
      c == Call(m, Ok(Refused(NotPaused)))
    ensures c.reply.Ok? && c.reply.value.Returned? ==>
      && c.reply.value.state.Some?
      && (c.reply.value.state.value.status == Paused <==> GetItem(c.machine.store, eng.key) == c.reply.value.state)
      && (c.reply.value.state.value.status != Paused ==> GetItem(c.machine.store, eng.key) == None)
    ensures c.reply.Err? ==> c.machine.store == m.store
    ensures forall k :: k != eng.key ==> GetItem(c.machine.store, k) == GetItem(m.store, k)
  {
    match GetItem(m.store, eng.key)
    case None => Call(m, Ok(Refused(NoState)))
    case Some(stored) =>
      if stored.status != Paused then Call(m, Ok(Refused(NotPaused)))
      else
        match stored.currentNode
        case None => Call(m, Err(NoCurrentNode))
        case Some(ref) =>
          if ref.id !in nodes then Call(m, Err(MissingNode(ref.id)))
          else
            var node := nodes[ref.id];
            var r := Traverse(eng, m, nodes, opts, ResumeEntry(stored, node.id, value), node);
            match r.result
            case Err(e) => Call(Machine(r.guard, r.store), Err(e))
            case Ok(Finished(f)) => Call(Machine(r.guard, RemoveItem(r.store, eng.key)), Ok(Returned(Some(f))))
            case Ok(Suspended(s)) => Call(Machine(r.guard, r.store), Ok(Returned(Some(s))))
  }

  /** `play(nodes, options)`: start or resume in one call. The root lookup is
      made even when resuming, so a graph with two roots fails either way. A
      paused run receives the option's return value; any other run gets `null`
      in its return slot. */
  function Play(eng: Engine, m: Machine, nodes: map<string, Node>, opts: Options): (c: Call)
    ensures opts.rootNodeId.None? && |RootKeys(nodes)| > 1 ==> c == Call(m, Err(MultipleRoots))
    ensures c.reply == Ok(Returned(None)) ==> GetItem(c.machine.store, eng.key) == None
    ensures c.reply.Ok? && c.reply.value.Returned? && c.reply.value.state.Some? ==>
      GetItem(c.machine.store, eng.key) == c.reply.value.state && c.reply.value.state.value.status == Paused
    ensures c.reply.Err? ==> c.machine.store == m.store
    ensures forall k :: k != eng.key ==> GetItem(c.machine.store, k) == GetItem(m.store, k)
  {
    var stored := GetItem(m.store, eng.key);
    match LookupRoot(nodes, opts)
    case Err(e) => Call(m, Err(e))
    case Ok(root) =>
      if stored.Some? && stored.value.currentNode.None? then Call(m, Err(NoCurrentNode))
      else
        var current :=
          if stored.None? then root
          else if stored.value.currentNode.value.id in nodes then Some(nodes[stored.value.currentNode.value.id])
          else None;
        match current
        case None => Call(m, Ok(Refused(NoRoot)))
        case Some(node) =>
          var base := if stored.None? then FreshState(eng.key) else stored.value;
          var entry := ResumeEntry(base, node.id, if base.status == Paused then opts.returnValue else Null);
          var st := entry.(currentNode := Some(Ref(node)));
          Conclude(eng.key, Traverse(eng, m, nodes, opts, st, node))
  }

  // ---------------------------------------------------------------------------
  // Lifecycle properties across calls

  /** A run that suspended occupies its key: starting it again is refused and
      touches neither the store nor the guard. */
  lemma StartIsSingleFlight(eng: Engine, m: Machine, nodes: map<string, Node>, opts: Options,
                            nodes2: map<string, Node>, opts2: Options)
    ensures var c := Start(eng, m, nodes, opts);
      c.reply.Ok? && c.reply.value.Returned? && c.reply.value.state.Some? ==>
        Start(eng, c.machine, nodes2, opts2) == Call(c.machine, Ok(Refused(AlreadyStarted)))
  {
  }

  /** Pausing and then resuming: the paused record is what `resume` loads; it
      re-enters traversal at the recorded current node, running again, with the
      supplied value in the variable named at the pause, and `resume` returns
      the state that traversal ends with. */
  lemma PauseThenResume(eng: Engine, g: Guard, store: Store<RunState>, st: RunState, v: string,
                        value: Value, nodes: map<string, Node>, opts: Options)
    requires st.currentNode.Some? && st.currentNode.value.id in nodes
    ensures var paused := Pause(store, eng.key, Some(st), v);
      var m := Machine(g, paused.1);
      var node := nodes[st.currentNode.value.id];
      var entry := ResumeEntry(paused.0.value, node.id, value);
      var r := Traverse(eng, m, nodes, opts, entry, node);
      && entry.status == Running
      && entry.localVars[node.id][v] == value
      && entry.currentNode == st.currentNode && entry.previousNode == st.previousNode
      && entry.globalVars == st.globalVars && entry.tags == st.tags
      && (r.result.Ok? ==> Resume(eng, m, value, nodes, opts).reply == Ok(Returned(Some(r.result.value.state))))
  {
  }

  /** `play` on a key with no record starts a fresh run at the root, exactly
      as `start` does, except that the root's scope already holds `null` under
      the property name `"undefined"` (the unset return variable). */
  lemma {:induction false} PlayStartsFreshRun(eng: Engine, m: Machine, nodes: map<string, Node>, opts: Options,
                                              root: Node)
    requires GetItem(m.store, eng.key).None? && LookupRoot(nodes, opts) == Ok(Some(root))
    ensures var init := FreshState(eng.key).(currentNode := Some(Ref(root)));
      && Start(eng, m, nodes, opts) == Conclude(eng.key, Traverse(eng, m, nodes, opts, init, root))
      && Play(eng, m, nodes, opts)
           == Conclude(eng.key, Traverse(eng, m, nodes, opts,
                                         init.(localVars := map[root.id := map["undefined" := Null]]), root))
  {
    var base := FreshState(eng.key);
    var entry := ResumeEntry(base, root.id, Null);
    assert ReturnSlot(base) == "undefined";
    assert entry.localVars == map[root.id := map["undefined" := Null]];
  }

  /** `play` on a paused record continues it like `resume` with the option's
      return value: same traversal, same store and guard afterwards. The one
      difference is the reply: `play` answers `null` where `resume` hands back
      the finished run's state. */
  lemma {:induction false} PlayResumesPausedRun(eng: Engine, m: Machine, nodes: map<string, Node>, opts: Options,
                                                s: RunState, n: Node)
    requires GetItem(m.store, eng.key) == Some(s) && s.status == Paused
    requires n.id in nodes && nodes[n.id] == n && s.currentNode == Some(Ref(n))
    requires LookupRoot(nodes, opts).Ok?
    ensures var p := Play(eng, m, nodes, opts);
      var r := Resume(eng, m, opts.returnValue, nodes, opts);
      && p.machine == r.machine
      && (r.reply.Err? ==> p.reply == r.reply)
      && (r.reply.Ok? ==>
            && r.reply.value.Returned? && r.reply.value.state.Some?
            && p.reply == Ok(Returned(if r.reply.value.state.value.status == Paused then r.reply.value.state else None)))
  {
    var entry := ResumeEntry(s, n.id, opts.returnValue);
    assert entry.currentNode == Some(Ref(n));
    assert entry.(currentNode := Some(Ref(n))) == entry;
    var t := Traverse(eng, m, nodes, opts, entry, n);
    assert t.result.Ok? && t.result.value.Finished? ==> t.result.value.state.status == Running;
  }

  /** After `stop` there is nothing to resume. */
  lemma StopThenResume(eng: Engine, m: Machine, value: Value, nodes: map<string, Node>, opts: Options)
    ensures Resume(eng, Stop(eng, m), value, nodes, opts).reply == Ok(Refused(NoState))
  {
  }
}

=== FILE: guard_finding.dfy ===
/** A concrete graph on which the source's loop guard never fires: node "x"
    reads input "a" from a leaf node and input "b" from its own output. Every
    pull of the leaf completes and resets the guard, so the counter never
    climbs past 2 while the pulls of "x" nest without end. */
module GuardFinding {
  import opened Base
  import opened LoopGuard
  import opened Workflow
  import opened Resolver
  import opened Controller

  const SelfFed: Connection := Connection("x", "out")

  function CycleNodes(): map<string, Node> {
    map[
      "x" := Node("x", "cyclic", true, map[], Null,
                  map["a" := [Connection("leaf", "out")], "b" := [SelfFed]], StaticOutputs(map[])),
      "leaf" := Node("leaf", "leaf", false, map[], Null, map[], StaticOutputs(map[]))
    ]
  }

  function CycleHost(): Host {
    Host(
      map["cyclic" := NodeType(StaticInputs([Port("a", "value"), Port("b", "value")])),
          "leaf" := NodeType(StaticInputs([]))],
      (portType: string, config: Value, ambient: Value) => Undefined,
      (n: Node, inputs: map<string, Value>, nt: NodeType, ctx: Context) => map[],
      (n: Node, inputs: map<string, Value>, nt: NodeType, ctx: Context, routes: set<string>) =>
        Activity(Continue(None), ctx.localVars, ctx.globalVars, []))
  }

  /** The constructor's engine for the source's policy, the guarded one for
      the top-level policy. */
  function CycleEngine(reset: GuardReset): Engine {
    match reset
    case ResetAfterEveryPull => NewEngine("run", CycleHost(), 0, 0)
    case ResetAfterTopLevelPull => GuardedEngine("run", CycleHost(), 0, 0)
  }

  function CycleEnv(reset: GuardReset): Env {
    EnvOf(CycleEngine(reset), CycleNodes(), Options(Null, None, Null))
  }

  const XPorts: seq<Port> := [Port("a", "value"), Port("b", "value")]

  /** The leaf is pulled successfully whenever depth is left; under the
      source's policy it hands back a fresh guard. */
  lemma LeafPull(reset: GuardReset, g: Guard, st: RunState, fuel: nat)
    requires !Exceeded(g) && fuel > 0
    ensures var e := Pull(CycleEnv(reset), Connection("leaf", "out"), g, st, fuel, false);
      && e.result.Ok?
      && e.result.value.state.previousNode == st.previousNode
      && (reset == ResetAfterEveryPull ==> e.guard == InitialGuard)
      && (reset == ResetAfterTopLevelPull ==> e.guard == g.(loops := g.loops + 1))
  {
    var env := CycleEnv(reset);
    var leaf := env.nodes["leaf"];
    var nt := env.host.nodeTypes["leaf"];
    var g1 := g.(loops := g.loops + 1);
    assert leaf.nodeType == "leaf" && nt.inputs == StaticInputs([]);
    assert DeclaredPorts(env, leaf, nt, st) == [];
    assert ResolvePorts(env, leaf, [], map[], g1, st, fuel - 1, false) == Eval(g1, Ok(Resolved(map[], st)));
    assert ResolveInputs(env, leaf, nt, g1, st, fuel - 1, false) == Eval(g1, Ok(Resolved(map[], st)));
  }

  /** With no depth left, a pull that gets past the guard is cut short. */
  lemma XPullNoFuel(reset: GuardReset, g: Guard, st: RunState, top: bool)
    requires !Exceeded(g)
    ensures Pull(CycleEnv(reset), SelfFed, g, st, 0, top).result == Err(FuelExhausted)
  {
    CycleWiring(reset, st.previousNode);
  }

  lemma LeafPullNoFuel(reset: GuardReset, g: Guard, st: RunState)
    requires !Exceeded(g)
    ensures Pull(CycleEnv(reset), Connection("leaf", "out"), g, st, 0, false).result == Err(FuelExhausted)
  {
    assert CycleEnv(reset).nodes["leaf"].nodeType == "leaf";
  }

  /** The port loop of "x": it fails exactly as the leaf pull or, after it,
      the pull of "x" itself fails. */
  lemma XPortsUnfold(reset: GuardReset, g: Guard, st: RunState, fuel: nat)
    ensures var env := CycleEnv(reset);
      var x := env.nodes["x"];
      var lp := Pull(env, Connection("leaf", "out"), g, st, fuel, false);
      var r := ResolvePorts(env, x, XPorts, map[], g, st, fuel, false);
      && (lp.result.Err? ==> r.result == Err(lp.result.error))
      && (lp.result.Ok? ==>
            var sp := Pull(env, SelfFed, lp.guard, lp.result.value.state, fuel, false);
            sp.result.Err? ==> r.result == Err(sp.result.error))
  {
    var env := CycleEnv(reset);
    var x := env.nodes["x"];
    CycleWiring(reset, st.previousNode);
    var lp := Pull(env, Connection("leaf", "out"), g, st, fuel, false);
    if lp.result.Ok? {
      var st2 := lp.result.value.state;
      assert st2.previousNode == st.previousNode;
      assert XPorts[1..] == [Port("b", "value")];
      var acc := map["a" := lp.result.value.value];
      var sp := Pull(env, SelfFed, lp.guard, st2, fuel, false);
      if sp.result.Err? {
        assert ResolvePorts(env, x, XPorts[1..], acc, lp.guard, st2, fuel, false).result == Err(sp.result.error);
      }
    }
  }

  /** A pull of "x" that gets past the guard fails exactly as its port loop. */
  lemma XPullUnfold(reset: GuardReset, g: Guard, g1: Guard, st: RunState, fuel: nat, top: bool)
    requires !Exceeded(g) && fuel > 0 && g1 == g.(loops := g.loops + 1)
    ensures var env := CycleEnv(reset);
      var r := ResolvePorts(env, env.nodes["x"], XPorts, map[], g1, st, fuel - 1, false);
      r.result.Err? ==> Pull(env, SelfFed, g, st, fuel, top).result == Err(r.result.error)
  {
    var env := CycleEnv(reset);
    CycleWiring(reset, st.previousNode);
    var x := env.nodes["x"];
    var nt := env.host.nodeTypes["cyclic"];
    assert DeclaredPorts(env, x, nt, st) == XPorts;
  }

  /** The facts about node "x" every unfolding of its pull needs. */
  lemma CycleWiring(reset: GuardReset, prev: Option<NodeRef>)
    ensures var x := CycleEnv(reset).nodes["x"];
      && x.id == "x" && x.nodeType == "cyclic"
      && CycleEnv(reset).host.nodeTypes["cyclic"].inputs == StaticInputs([Port("a", "value"), Port("b", "value")])
      && FirstSurvivor(x, "a", prev) == Some(Connection("leaf", "out"))
      && FirstSurvivor(x, "b", prev) == Some(SelfFed)
  {
    var x := CycleEnv(reset).nodes["x"];
    assert Incoming(x, "a") == [Connection("leaf", "out")];
    assert Incoming(x, "b") == [SelfFed];
    assert RouteInputs(x) == [];
  }

  /** The port loop of "x" under the source's policy: the leaf pull succeeds
      and hands back a fresh guard, and the loop fails as the re-entry of "x"
      from that guard fails. */
  lemma NestedPorts(st: RunState, fuel: nat)
    requires fuel > 1
    ensures var env := CycleEnv(ResetAfterEveryPull);
      var g1 := Guard(1, DefaultMaxLoops);
      var lp := Pull(env, Connection("leaf", "out"), g1, st, fuel - 1, false);
      && lp.result.Ok?
      && (Pull(env, SelfFed, InitialGuard, lp.result.value.state, fuel - 1, false).result == Err(FuelExhausted) ==>
            ResolvePorts(env, env.nodes["x"], XPorts, map[], g1, st, fuel - 1, false).result == Err(FuelExhausted))
  {
    var g1 := Guard(1, DefaultMaxLoops);
    XPortsUnfold(ResetAfterEveryPull, g1, st, fuel - 1);
    LeafPull(ResetAfterEveryPull, g1, st, fuel - 1);
  }

  /** Two levels of the pull of "x" under the source's policy: with depth
      for the leaf, "x" fails as its own re-entry from a fresh guard fails. */
  lemma NestedStep(st: RunState, fuel: nat, top: bool)
    requires fuel > 1
    requires Pull(CycleEnv(ResetAfterEveryPull), Connection("leaf", "out"), Guard(1, DefaultMaxLoops), st, fuel - 1, false)
               .result.Ok?
    ensures var env := CycleEnv(ResetAfterEveryPull);
      var lp := Pull(env, Connection("leaf", "out"), Guard(1, DefaultMaxLoops), st, fuel - 1, false);
      Pull(env, SelfFed, InitialGuard, lp.result.value.state, fuel - 1, false).result == Err(FuelExhausted) ==>
        Pull(env, SelfFed, InitialGuard, st, fuel, top).result == Err(FuelExhausted)
  {
    NestedPorts(st, fuel);
    XPullUnfold(ResetAfterEveryPull, InitialGuard, Guard(1, DefaultMaxLoops), st, fuel, top);
  }

  /** With depth for "x" but none for the leaf, the leaf pull is cut short. */
  lemma NestedLastLevel(st: RunState, top: bool)
    ensures Pull(CycleEnv(ResetAfterEveryPull), SelfFed, InitialGuard, st, 1, top).result == Err(FuelExhausted)
  {
    var g1 := Guard(1, DefaultMaxLoops);
    assert g1 == InitialGuard.(loops := InitialGuard.loops + 1);
    XPullUnfold(ResetAfterEveryPull, InitialGuard, g1, st, 1, top);
    XPortsUnfold(ResetAfterEveryPull, g1, st, 0);
    LeafPullNoFuel(ResetAfterEveryPull, g1, st);
  }

  /** Finding, as written: with the guard reset after every pull, the pull of
      "x" from a fresh guard never raises the loop error. Whatever depth the
      model allows is used up, so in the source the recursion does not end. */
  lemma {:induction false} NestedResetDefeatsGuard(st: RunState, fuel: nat, top: bool)
    ensures Pull(CycleEnv(ResetAfterEveryPull), SelfFed, InitialGuard, st, fuel, top).result == Err(FuelExhausted)
    decreases fuel
  {
    if fuel == 0 {
      XPullNoFuel(ResetAfterEveryPull, InitialGuard, st, top);
    } else if fuel == 1 {
      NestedLastLevel(st, top);
    } else {
      NestedPorts(st, fuel);
      NestedStep(st, fuel, top);
      var lp := Pull(CycleEnv(ResetAfterEveryPull), Connection("leaf", "out"), Guard(1, DefaultMaxLoops), st, fuel - 1, false);
      NestedResetDefeatsGuard(lp.result.value.state, fuel - 1, false);
    }
  }

  /** A pull whose guard has passed its ceiling raises the loop error. */
  lemma PullExceeded(reset: GuardReset, c: Connection, g: Guard, st: RunState, fuel: nat, top: bool)
    requires Exceeded(g)
    ensures Pull(CycleEnv(reset), c, g, st, fuel, top).result
      == Err(LoopLimit(LoopError("Max loop count exceeded.", MaxLoopsExceeded)))
  {
  }

  /** Two levels of the pull of "x" under the top-level policy: the counter
      climbs by two, and "x" fails as the leaf pull or the re-entry fails. */
  lemma GuardedStep(g: Guard, g1: Guard, st: RunState, fuel: nat, top: bool) returns (g2: Guard, st2: RunState)
    requires !Exceeded(g) && fuel > 0 && g1 == g.(loops := g.loops + 1)
    ensures var env := CycleEnv(ResetAfterTopLevelPull);
      && (Exceeded(g1) ==> Pull(env, SelfFed, g, st, fuel, top).result == Err(LoopLimit(LoopError("Max loop count exceeded.", MaxLoopsExceeded))))
      && (!Exceeded(g1) && fuel > 1 ==>
            && g2 == g.(loops := g.loops + 2)
            && var sp := Pull(env, SelfFed, g2, st2, fuel - 1, false);
               sp.result.Err? ==> Pull(env, SelfFed, g, st, fuel, top).result == Err(sp.result.error))
  {
    XPullUnfold(ResetAfterTopLevelPull, g, g1, st, fuel, top);
    XPortsUnfold(ResetAfterTopLevelPull, g1, st, fuel - 1);
    g2, st2 := g, st;
    if Exceeded(g1) {
      PullExceeded(ResetAfterTopLevelPull, Connection("leaf", "out"), g1, st, fuel - 1, false);
    } else if fuel > 1 {
      LeafPull(ResetAfterTopLevelPull, g1, st, fuel - 1);
      var lp := Pull(CycleEnv(ResetAfterTopLevelPull), Connection("leaf", "out"), g1, st, fuel - 1, false);
      g2, st2 := lp.guard, lp.result.value.state;
    }
  }

  /** Finding, corrected: with the guard reset only after top-level pulls the
      same graph raises the loop error (code 1) once the counter passes the
      ceiling, given the depth the guard's window allows. */
  lemma {:induction false} TopLevelResetCatchesCycle(g: Guard, st: RunState, fuel: nat, top: bool)
    requires g.maxLoops >= 0 && fuel + g.loops > g.maxLoops
    ensures Pull(CycleEnv(ResetAfterTopLevelPull), SelfFed, g, st, fuel, top).result
      == Err(LoopLimit(LoopError("Max loop count exceeded.", MaxLoopsExceeded)))
    decreases fuel
  {
    var env := CycleEnv(ResetAfterTopLevelPull);
    if Exceeded(g) {
      PullExceeded(ResetAfterTopLevelPull, SelfFed, g, st, fuel, top);
    } else {
      var g1 := g.(loops := g.loops + 1);
      var g2, st2 := GuardedStep(g, g1, st, fuel, top);
      if !Exceeded(g1) {
        TopLevelResetCatchesCycle(g2, st2, fuel - 1, false);
      }
    }
  }
}

=== FILE: local_storage.dfy ===
/** The default key/value store the engine persists run states to. A stored
    record is handed back as it was written (the JSON round trip is taken as the
    identity on plain records). */
module LocalStorage {
  import opened Base

  type Store<V> = map<string, V>

  /** `getItem(key)`: the stored record, or `null` for a key never set or removed. */
  function GetItem<V>(s: Store<V>, key: string): (r: Option<V>)
    ensures r.Some? <==> key in s
    ensures r.Some? ==> r.value == s[key]
  {
    if key in s then Some(s[key]) else None
  }

  /** `setItem(key, value)`: the key now reads back `value`, whatever it held
      before; every other key reads back as before. */
  function SetItem<V>(s: Store<V>, key: string, value: V): (r: Store<V>)
    ensures GetItem(r, key) == Some(value)
    ensures forall k :: k != key ==> GetItem(r, k) == GetItem(s, k)
    ensures r.Keys == s.Keys + {key}
  {
    s[key := value]
  }

  /** `removeItem(key)`: the key reads back `null`; every other key as before. */
  function RemoveItem<V>(s: Store<V>, key: string): (r: Store<V>)
    ensures GetItem(r, key) == None
    ensures forall k :: k != key ==> GetItem(r, k) == GetItem(s, k)
    ensures r.Keys == s.Keys - {key}
  {
    s - {key}
  }
}

=== FILE: loop_guard.dfy ===
/** The engine's loop guard: a counter `loops` with a ceiling `maxLoops`,
    checked once per data pull. */
module LoopGuard {
  import opened Base

  /** The ceiling `resetLoops()` restores when called without an argument. */
  const DefaultMaxLoops: int := 1000

  /** The code carried by the loop-limit error (`LoopError.maxLoopsExceeded`). */
  const MaxLoopsExceeded: int := 1

  datatype LoopError = LoopError(message: string, code: int)

  datatype Guard = Guard(loops: int, maxLoops: int)

  /** The guard a freshly constructed engine starts with. */
  const InitialGuard: Guard := Guard(0, DefaultMaxLoops)

  /** `resetLoops(maxLoops?)`: a fresh window; an omitted ceiling means 1000. */
  function ResetLoops(maxLoops: Option<int>): (g: Guard)
    ensures g.loops == 0
    ensures maxLoops.Some? ==> g.maxLoops == maxLoops.value
    ensures maxLoops.None? ==> g == InitialGuard
  {
    match maxLoops
    case Some(m) => Guard(0, m)
    case None => Guard(0, DefaultMaxLoops)
  }

  /** The condition under which `checkLoops` raises. */
  predicate Exceeded(g: Guard) {
    g.maxLoops >= 0 && g.loops > g.maxLoops
  }

  /** `checkLoops()`: raise the loop error once the counter has passed a
      non-negative ceiling, otherwise count one more pull. */
  function CheckLoops(g: Guard): (r: Result<Guard, LoopError>)
    ensures r.Err? <==> g.maxLoops >= 0 && g.loops > g.maxLoops
    ensures r.Err? ==> r.error.code == MaxLoopsExceeded
    ensures r.Ok? ==> r.value.loops == g.loops + 1 && r.value.maxLoops == g.maxLoops
  {
    if Exceeded(g) then Err(LoopError("Max loop count exceeded.", MaxLoopsExceeded))
    else Ok(g.(loops := g.loops + 1))
  }

  /** `n` consecutive `checkLoops()` calls with no reset in between. */
  function CheckTimes(g: Guard, n: nat): Result<Guard, LoopError>
    decreases n
  {
    if n == 0 then Ok(g)
    else
      match CheckLoops(g)
      case Err(e) => Err(e)
      case Ok(g') => CheckTimes(g', n - 1)
  }

  /** The window a guard admits: `n` checks succeed exactly when the ceiling is
      negative or the counter stays within `maxLoops + 1` after them. */
  lemma {:induction false} GuardWindow(g: Guard, n: nat)
    ensures CheckTimes(g, n).Ok? <==> (n == 0 || g.maxLoops < 0 || g.loops + n <= g.maxLoops + 1)
    ensures CheckTimes(g, n).Ok? ==> CheckTimes(g, n).value == g.(loops := g.loops + n)
    ensures CheckTimes(g, n).Err? ==> CheckTimes(g, n).error.code == MaxLoopsExceeded
    decreases n
  {
    if n > 0 {
      match CheckLoops(g)
      case Err(e) =>
      case Ok(g') => GuardWindow(g', n - 1);
    }
  }

  /** A negative ceiling switches the guard off: any number of checks pass. */
  lemma {:induction false} NegativeCeilingNeverRaises(g: Guard, n: nat)
    requires g.maxLoops < 0
    ensures CheckTimes(g, n) == Ok(g.(loops := g.loops + n))
  {
    GuardWindow(g, n);
  }

  /** After `resetLoops()` exactly 1001 pulls pass and the 1002nd raises. */
  lemma DefaultWindowIsCeilingPlusOne()
    ensures CheckTimes(ResetLoops(None), DefaultMaxLoops + 1).Ok?
    ensures CheckTimes(ResetLoops(None), DefaultMaxLoops + 2).Err?
  {
    GuardWindow(ResetLoops(None), DefaultMaxLoops + 1);
    GuardWindow(ResetLoops(None), DefaultMaxLoops + 2);
  }
}

=== FILE: resolver.dfy ===
/** Input resolution and the connection pull: how the engine finds the value of
    every input port of a node, pulling recursively through upstream nodes. */
module Resolver {
  import opened Base
  import opened LoopGuard
  import opened Workflow

  /** When the loop guard is given a fresh window. The source resets it at the
      end of every pull, nested ones included; the intended behaviour resets
      it only once a top-level pull (one made for the node being traversed)
      has completed. */
  datatype GuardReset = ResetAfterEveryPull | ResetAfterTopLevelPull

  /** What stays fixed during one traversal: the host, the graph, the caller's
      ambient context and the guard policy. */
  datatype Env = Env(host: Host, nodes: map<string, Node>, ambient: Value, reset: GuardReset)

  /** A result together with the loop guard as the computation left it (the
      guard is engine state and survives a thrown error). */
  datatype Eval<T> = Eval(guard: Guard, result: Result<T, EngineError>)

  datatype Pulled = Pulled(value: Value, state: RunState)

  datatype Resolved = Resolved(values: map<string, Value>, state: RunState)

  // ---------------------------------------------------------------------------
  // The route filter

  /** `node.connections.inputs[name] || []`. */
  function Incoming(node: Node, name: string): seq<Connection> {
    if name in node.inputs then node.inputs[name] else []
  }

  /** The flow connections that routed control into the node. */
  function RouteInputs(node: Node): seq<Connection> {
    Incoming(node, "route")
  }

  function SourceIds(cs: seq<Connection>): (ids: seq<string>)
    ensures |ids| == |cs|
    ensures forall i :: 0 <= i < |cs| ==> ids[i] == cs[i].nodeId
  {
    seq(|cs|, i requires 0 <= i < |cs| => cs[i].nodeId)
  }

  predicate IsPrevious(prev: Option<NodeRef>, id: string) {
    prev.Some? && prev.value.id == id
  }

  /** The filter's meaning: an input connection is ignored exactly when its
      source also routes control into the node and is not the node control
      just came from. */
  predicate Dropped(node: Node, prev: Option<NodeRef>, c: Connection) {
    c.nodeId in SourceIds(RouteInputs(node)) && !IsPrevious(prev, c.nodeId)
  }

  /** The ids of the route sources other than the previous node. */
  function BlockedIds(rs: seq<Connection>, prev: Option<NodeRef>): (ids: seq<string>)
    ensures forall id :: id in ids <==> id in SourceIds(rs) && !IsPrevious(prev, id)
    decreases |rs|
  {
    if rs == [] then []
    else
      var rest := BlockedIds(rs[1..], prev);
      assert SourceIds(rs) == [rs[0].nodeId] + SourceIds(rs[1..]);
      if IsPrevious(prev, rs[0].nodeId) then rest else [rs[0].nodeId] + rest
  }

  /** The connections whose source is not blocked, in their original order. */
  function Surviving(cs: seq<Connection>, blocked: seq<string>): (r: seq<Connection>)
    ensures forall c :: c in r <==> c in cs && c.nodeId !in blocked
    decreases |cs|
  {
    if cs == [] then []
    else
      var rest := Surviving(cs[1..], blocked);
      assert forall c :: c in cs <==> c == cs[0] || c in cs[1..];
      if cs[0].nodeId in blocked then rest else [cs[0]] + rest
  }

  /** The first surviving connection is the earliest unblocked one. */
  lemma {:induction false} SurvivingHead(cs: seq<Connection>, blocked: seq<string>)
    ensures |Surviving(cs, blocked)| > 0 ==>
      exists i :: 0 <= i < |cs| && cs[i] == Surviving(cs, blocked)[0] && cs[i].nodeId !in blocked
        && forall j :: 0 <= j < i ==> cs[j].nodeId in blocked
    decreases |cs|
  {
    if cs == [] {
    } else if cs[0].nodeId !in blocked {
      assert Surviving(cs, blocked)[0] == cs[0];
    } else {
      var rest := cs[1..];
      assert Surviving(cs, blocked) == Surviving(rest, blocked);
      SurvivingHead(rest, blocked);
      if |Surviving(rest, blocked)| > 0 {
        var i :| 0 <= i < |rest| && rest[i] == Surviving(rest, blocked)[0] && rest[i].nodeId !in blocked
          && forall j :: 0 <= j < i ==> rest[j].nodeId in blocked;
        assert cs[i + 1] == rest[i];
        assert forall j :: 0 <= j < i + 1 ==> cs[j].nodeId in blocked by {
          assert forall j :: 1 <= j < i + 1 ==> cs[j] == rest[j - 1];
        }
      }
    }
  }

  /** The input connections of port `name` that the route filter keeps. */
  function SurvivingInputs(node: Node, name: string, prev: Option<NodeRef>): (r: seq<Connection>)
    ensures forall c :: c in r <==> c in Incoming(node, name) && !Dropped(node, prev, c)
  {
    Surviving(Incoming(node, name), BlockedIds(RouteInputs(node), prev))
  }

  /** The one connection a port reads from (`inputConnections[0]`): the
      earliest connection the route filter keeps, or none when it keeps none.
      Later surviving connections are never consulted. */
  function FirstSurvivor(node: Node, name: string, prev: Option<NodeRef>): (r: Option<Connection>)
    ensures r.None? <==> forall c :: c in Incoming(node, name) ==> Dropped(node, prev, c)
    ensures r.Some? ==> !Dropped(node, prev, r.value)
    ensures r.Some? ==>
      exists i :: 0 <= i < |Incoming(node, name)| && Incoming(node, name)[i] == r.value
        && forall j :: 0 <= j < i ==> Dropped(node, prev, Incoming(node, name)[j])
  {
    var s := SurvivingInputs(node, name, prev);
    SurvivingHead(Incoming(node, name), BlockedIds(RouteInputs(node), prev));
    if |s| > 0 then
      assert s[0] in s;
      Some(s[0])
    else
      None
  }

  // ---------------------------------------------------------------------------
  // Input resolution and the connection pull

  /** The value the host's control resolver gives an unconnected port:
      `resolveInputControls(type, inputData[name] || {}, context)`. */
  function ControlValue(env: Env, node: Node, p: Port): Value {
    env.host.resolveInputControls(p.portType, OrEmptyObject(Get(node.inputData, p.name)), env.ambient)
  }

  /** The names of the declared ports. */
  function PortNames(ports: seq<Port>): (names: set<string>)
    ensures forall i :: 0 <= i < |ports| ==> ports[i].name in names
    ensures forall n :: n in names ==> exists i :: 0 <= i < |ports| && ports[i].name == n
    decreases |ports|
  {
    if ports == [] then {}
    else
      var rest := PortNames(ports[1..]);
      assert forall i :: 1 <= i < |ports| ==> ports[i] == ports[1..][i - 1];
      assert forall n :: n in rest ==> exists i :: 0 <= i < |ports| && ports[i].name == n by {
        forall n | n in rest ensures exists i :: 0 <= i < |ports| && ports[i].name == n {
          var j :| 0 <= j < |ports[1..]| && ports[1..][j].name == n;
          assert ports[j + 1].name == n;
        }
      }
      {ports[0].name} + rest
  }

  /** No later port declares the same name (the later one would overwrite it). */
  predicate LastDeclaration(ports: seq<Port>, i: int)
    requires 0 <= i < |ports|
  {
    ports[i].name !in PortNames(ports[i + 1..])
  }

  /** The node type's declared input ports; a computed list sees the node's
      local-variable scope, created first if missing. */
  function DeclaredPorts(env: Env, node: Node, nt: NodeType, st: RunState): seq<Port> {
    match nt.inputs
    case StaticInputs(ps) => ps
    case ComputedInputs(f) =>
      f(node.inputData, node.inputs, ContextAt(env.ambient, EnsureLocals(st, node.id), node.id))
  }

  /** A pull may only create empty local-variable scopes: every other part of
      the run state, and every existing scope, is left as it was. */
  predicate Framed(a: RunState, b: RunState) {
    && b == a.(localVars := b.localVars)
    && a.localVars.Keys <= b.localVars.Keys
    && (forall k :: k in a.localVars ==> b.localVars[k] == a.localVars[k])
    && (forall k :: k in b.localVars && k !in a.localVars ==> b.localVars[k] == map[])
  }

  /** Whether the pull gives the guard a fresh window once it completes. */
  predicate ResetsAfter(env: Env, top: bool) {
    env.reset == ResetAfterEveryPull || top
  }

  /** `getValueOfConnection(connection)`: count one pull against the loop
      guard, resolve the upstream node's inputs, run its node function and read
      the connected output port. `fuel` bounds the nesting depth of the model;
      `top` tells a pull made for the traversed node from a nested one. */
  function Pull(env: Env, c: Connection, g: Guard, st: RunState, fuel: nat, top: bool): (e: Eval<Pulled>)
    ensures e.result.Ok? ==> Framed(st, e.result.value.state)
    ensures e.result.Ok? && ResetsAfter(env, top) ==> e.guard == InitialGuard
    ensures e.result.Ok? && !ResetsAfter(env, top) ==>
      e.guard.maxLoops == g.maxLoops && e.guard.loops > g.loops
    ensures e.result.Err? && e.result.error.LoopLimit? ==> e.result.error.loopError.code == MaxLoopsExceeded
    decreases fuel, 0, 0
  {
    match CheckLoops(g)
    case Err(le) => Eval(g, Err(LoopLimit(le)))
    case Ok(g1) =>
      if c.nodeId !in env.nodes then Eval(g1, Err(MissingNode(c.nodeId)))
      else
        var node := env.nodes[c.nodeId];
        if node.nodeType !in env.host.nodeTypes then Eval(g1, Err(MissingNodeType(node.nodeType)))
        else if fuel == 0 then Eval(g1, Err(FuelExhausted))
        else
          var nt := env.host.nodeTypes[node.nodeType];
          var e := ResolveInputs(env, node, nt, g1, st, fuel - 1, false);
          match e.result
          case Err(err) => Eval(e.guard, Err(err))
          case Ok(res) =>
            var st2 := EnsureLocals(res.state, node.id);
            var out := env.host.fireNodeFunction(node, res.values, nt, ContextAt(env.ambient, st2, node.id));
            var g2 := if ResetsAfter(env, top) then ResetLoops(None) else e.guard;
            Eval(g2, Ok(Pulled(Get(out, c.portName), st2)))
  }

  /** `resolveInputValues(node, nodeType)`: one value per declared input port. */
  function ResolveInputs(env: Env, node: Node, nt: NodeType, g: Guard, st: RunState, fuel: nat, top: bool)
    : (e: Eval<Resolved>)
    ensures e.result.Ok? ==> e.result.value.values.Keys == PortNames(DeclaredPorts(env, node, nt, st))
    ensures e.result.Ok? ==> Framed(st, e.result.value.state)
    ensures e.result.Ok? && !ResetsAfter(env, top) ==>
      e.guard.maxLoops == g.maxLoops && e.guard.loops >= g.loops
    ensures e.result.Ok? && ResetsAfter(env, top) ==> e.guard == g || e.guard == InitialGuard
    ensures e.result.Err? && e.result.error.LoopLimit? ==> e.result.error.loopError.code == MaxLoopsExceeded
    decreases fuel, 2, 0
  {
    var st1 := if nt.inputs.ComputedInputs? then EnsureLocals(st, node.id) else st;
    ResolvePorts(env, node, DeclaredPorts(env, node, nt, st), map[], g, st1, fuel, top)
  }

  /** One pass of the port loop of `resolveInputValues`: the port takes the
      value pulled from its first surviving connection or, lacking one, the
      value the host's control resolver gives it. */
  function ResolvePort(env: Env, node: Node, p: Port, acc: map<string, Value>,
                       g: Guard, st: RunState, fuel: nat, top: bool): (e: Eval<Resolved>)
    ensures e.result.Ok? ==> e.result.value.values.Keys == acc.Keys + {p.name}
    ensures e.result.Ok? ==> forall k :: k in acc && k != p.name ==> e.result.value.values[k] == acc[k]
    ensures e.result.Ok? ==> Framed(st, e.result.value.state)
    ensures e.result.Ok? && !ResetsAfter(env, top) ==>
      e.guard.maxLoops == g.maxLoops && e.guard.loops >= g.loops
    ensures e.result.Ok? && ResetsAfter(env, top) ==> e.guard == g || e.guard == InitialGuard
    ensures e.result.Err? && e.result.error.LoopLimit? ==> e.result.error.loopError.code == MaxLoopsExceeded
    decreases fuel, 1, 0
  {
    match FirstSurvivor(node, p.name, st.previousNode)
    case None => Eval(g, Ok(Resolved(acc[p.name := ControlValue(env, node, p)], st)))
    case Some(c) =>
      var e := Pull(env, c, g, st, fuel, top);
      match e.result
      case Err(err) => Eval(e.guard, Err(err))
      case Ok(pl) => Eval(e.guard, Ok(Resolved(acc[p.name := pl.value], pl.state)))
  }

  /** The port loop of `resolveInputValues`: ports are resolved strictly in
      order, each by `ResolvePort`. */
  function ResolvePorts(env: Env, node: Node, ports: seq<Port>, acc: map<string, Value>,
                        g: Guard, st: RunState, fuel: nat, top: bool): (e: Eval<Resolved>)
    ensures e.result.Ok? ==> e.result.value.values.Keys == acc.Keys + PortNames(ports)
    ensures e.result.Ok? ==> forall k :: k in acc && k !in PortNames(ports) ==>
      e.result.value.values[k] == acc[k]
    ensures e.result.Ok? ==> Framed(st, e.result.value.state)
    ensures e.result.Ok? && !ResetsAfter(env, top) ==>
      e.guard.maxLoops == g.maxLoops && e.guard.loops >= g.loops
    ensures e.result.Ok? && ResetsAfter(env, top) ==> e.guard == g || e.guard == InitialGuard
    ensures e.result.Err? && e.result.error.LoopLimit? ==> e.result.error.loopError.code == MaxLoopsExceeded
    decreases fuel, 1, |ports|
  {
    if ports == [] then Eval(g, Ok(Resolved(acc, st)))
    else
      assert PortNames(ports) == {ports[0].name} + PortNames(ports[1..]);
      var e := ResolvePort(env, node, ports[0], acc, g, st, fuel, top);
      match e.result
      case Err(err) => Eval(e.guard, Err(err))
      case Ok(res) =>
        var r := ResolvePorts(env, node, ports[1..], res.values, e.guard, res.state, fuel, top);
        if r.result.Ok? then FramedTransitive(st, res.state, r.result.value.state); r else r
  }

  /** A pull followed by another only creates empty scopes too. */
  lemma FramedTransitive(a: RunState, b: RunState, c: RunState)
    requires Framed(a, b) && Framed(b, c)
    ensures Framed(a, c)
  {
  }

  /** The value a completed pull hands back is the connected output port of
      the upstream node's function, fired on the values resolving that node's
      inputs produced and in the context of its scope as the pull leaves it. */
  lemma PullValue(env: Env, c: Connection, g: Guard, st: RunState, fuel: nat, top: bool)
    ensures var e := Pull(env, c, g, st, fuel, top);
      e.result.Ok? ==>
        && CheckLoops(g).Ok? && fuel > 0
        && c.nodeId in env.nodes
        && env.nodes[c.nodeId].nodeType in env.host.nodeTypes
        && var node := env.nodes[c.nodeId];
           var nt := env.host.nodeTypes[node.nodeType];
           var ri := ResolveInputs(env, node, nt, CheckLoops(g).value, st, fuel - 1, false);
           && ri.result.Ok?
           && ri.result.value.values.Keys == PortNames(DeclaredPorts(env, node, nt, st))
           && e.result.value.state == EnsureLocals(ri.result.value.state, node.id)
           && e.result.value.value
              == Get(env.host.fireNodeFunction(node, ri.result.value.values, nt,
                       ContextAt(env.ambient, e.result.value.state, node.id)),
                     c.portName)
  {
  }

  /** An unconnected port (every input connection dropped by the route filter,
      or none at all) takes the value the host's control resolver gives it;
      when a name is declared twice the later declaration wins. */
  lemma {:induction false} UnconnectedPortsUseControls(env: Env, node: Node, ports: seq<Port>,
      acc: map<string, Value>, g: Guard, st: RunState, fuel: nat, top: bool, i: nat)
    requires i < |ports| && LastDeclaration(ports, i)
    requires FirstSurvivor(node, ports[i].name, st.previousNode).None?
    ensures var e := ResolvePorts(env, node, ports, acc, g, st, fuel, top);
      e.result.Ok? ==> e.result.value.values[ports[i].name] == ControlValue(env, node, ports[i])
  {
    ResolvePortsSplit(env, node, ports, acc, g, st, fuel, top, i);
    var pre := ResolvePorts(env, node, ports[..i], acc, g, st, fuel, top);
    if pre.result.Ok? {
      var st1 := pre.result.value.state;
      assert st1.previousNode == st.previousNode;
      var tail := ports[i..];
      assert tail[0] == ports[i] && tail[1..] == ports[i + 1..];
      var acc' := pre.result.value.values[ports[i].name := ControlValue(env, node, ports[i])];
      assert ResolvePorts(env, node, tail, pre.result.value.values, pre.guard, st1, fuel, top)
          == ResolvePorts(env, node, tail[1..], acc', pre.guard, st1, fuel, top);
    }
  }

  /** The port loop runs its ports strictly in order: resolving a list is
      resolving its first `i` ports, then the rest from the guard and state
      they leave behind. An error in the first `i` ports ends the loop. */
  lemma {:induction false} ResolvePortsSplit(env: Env, node: Node, ports: seq<Port>,
      acc: map<string, Value>, g: Guard, st: RunState, fuel: nat, top: bool, i: nat)
    requires i <= |ports|
    ensures var pre := ResolvePorts(env, node, ports[..i], acc, g, st, fuel, top);
      pre.result.Err? ==> ResolvePorts(env, node, ports, acc, g, st, fuel, top) == pre
    ensures var pre := ResolvePorts(env, node, ports[..i], acc, g, st, fuel, top);
      pre.result.Ok? ==>
        ResolvePorts(env, node, ports, acc, g, st, fuel, top)
          == ResolvePorts(env, node, ports[i..], pre.result.value.values, pre.guard, pre.result.value.state, fuel, top)
    decreases i
  {
    if i == 0 {
      assert ports[..0] == [] && ports[0..] == ports;
      assert ResolvePorts(env, node, [], acc, g, st, fuel, top) == Eval(g, Ok(Resolved(acc, st)));
    } else {
      var rest := ports[1..];
      var front := ports[..i];
      assert front[0] == ports[0] && front[1..] == rest[..i - 1] && rest[i - 1..] == ports[i..];
      var e := ResolvePort(env, node, ports[0], acc, g, st, fuel, top);
      if e.result.Ok? {
        ResolvePortsSplit(env, node, rest, e.result.value.values, e.guard, e.result.value.state, fuel, top, i - 1);
      }
    }
  }

  /** A port with a surviving connection takes the value pulled from its
      first survivor, with the guard and run state the earlier ports left;
      when a name is declared twice the later declaration wins. */
  lemma {:induction false} ConnectedPortsUsePull(env: Env, node: Node, ports: seq<Port>,
      acc: map<string, Value>, g: Guard, st: RunState, fuel: nat, top: bool, i: nat, c: Connection)
    requires i < |ports| && LastDeclaration(ports, i)
    requires FirstSurvivor(node, ports[i].name, st.previousNode) == Some(c)
    ensures var pre := ResolvePorts(env, node, ports[..i], acc, g, st, fuel, top);
      var e := ResolvePorts(env, node, ports, acc, g, st, fuel, top);
      e.result.Ok? ==>
        && pre.result.Ok?
        && var pe := Pull(env, c, pre.guard, pre.result.value.state, fuel, top);
           && pe.result.Ok?
           && e.result.value.values[ports[i].name] == pe.result.value.value
  {
    ResolvePortsSplit(env, node, ports, acc, g, st, fuel, top, i);
    var pre := ResolvePorts(env, node, ports[..i], acc, g, st, fuel, top);
    if pre.result.Ok? {
      var st1 := pre.result.value.state;
      assert st1.previousNode == st.previousNode;
      var tail := ports[i..];
      assert tail[0] == ports[i] && tail[1..] == ports[i + 1..];
      var pe := Pull(env, c, pre.guard, st1, fuel, top);
      if pe.result.Ok? {
        var acc' := pre.result.value.values[ports[i].name := pe.result.value.value];
        assert ResolvePorts(env, node, tail, pre.result.value.values, pre.guard, st1, fuel, top)
            == ResolvePorts(env, node, tail[1..], acc', pe.guard, pe.result.value.state, fuel, top);
      }
    }
  }

  // ---------------------------------------------------------------------------
  // The guard's promise under the intended reset policy

  /** With the guard reset only after top-level pulls and a non-negative
      ceiling, a pull never nests deeper than the guard's remaining window:
      given that much depth it returns a value or raises an error of the
      source (the loop error among them), and never needs more depth. */
  lemma {:induction false} PullBounded(env: Env, c: Connection, g: Guard, st: RunState, fuel: nat, top: bool)
    requires env.reset == ResetAfterTopLevelPull
    requires g.maxLoops >= 0 && fuel + g.loops > g.maxLoops
    ensures !(Pull(env, c, g, st, fuel, top).result.Err? && Pull(env, c, g, st, fuel, top).result.error.FuelExhausted?)
    decreases fuel, 0, 0
  {
    match CheckLoops(g)
    case Err(_) =>
    case Ok(g1) =>
      if c.nodeId in env.nodes && env.nodes[c.nodeId].nodeType in env.host.nodeTypes {
        var node := env.nodes[c.nodeId];
        ResolveInputsBounded(env, node, env.host.nodeTypes[node.nodeType], g1, st, fuel - 1);
      }
  }

  lemma {:induction false} ResolveInputsBounded(env: Env, node: Node, nt: NodeType, g: Guard, st: RunState, fuel: nat)
    requires env.reset == ResetAfterTopLevelPull
    requires g.maxLoops >= 0 && fuel + g.loops > g.maxLoops
    ensures !(ResolveInputs(env, node, nt, g, st, fuel, false).result.Err?
              && ResolveInputs(env, node, nt, g, st, fuel, false).result.error.FuelExhausted?)
    decreases fuel, 2, 0
  {
    var st1 := if nt.inputs.ComputedInputs? then EnsureLocals(st, node.id) else st;
    ResolvePortsBounded(env, node, DeclaredPorts(env, node, nt, st), map[], g, st1, fuel);
  }

  lemma {:induction false} ResolvePortsBounded(env: Env, node: Node, ports: seq<Port>, acc: map<string, Value>,
      g: Guard, st: RunState, fuel: nat)
    requires env.reset == ResetAfterTopLevelPull
    requires g.maxLoops >= 0 && fuel + g.loops > g.maxLoops
    ensures !(ResolvePorts(env, node, ports, acc, g, st, fuel, false).result.Err?
              && ResolvePorts(env, node, ports, acc, g, st, fuel, false).result.error.FuelExhausted?)
    decreases fuel, 1, |ports|
  {
    if ports != [] {
      var p := ports[0];
      match FirstSurvivor(node, p.name, st.previousNode)
      case None =>
        ResolvePortsBounded(env, node, ports[1..], acc[p.name := ControlValue(env, node, p)], g, st, fuel);
      case Some(c) =>
        PullBounded(env, c, g, st, fuel, false);
        var e := Pull(env, c, g, st, fuel, false);
        if e.result.Ok? {
          ResolvePortsBounded(env, node, ports[1..], acc[p.name := e.result.value.value], e.guard, e.result.value.state, fuel);
        }
    }
  }
}

=== FILE: tags.dfy ===
/** The run's tag list, as the control handle exposes it to activities:
    `addTag`, `removeTag` and `hasTag`. */
module Tags {

  datatype TagOp = AddTagOp(tag: string) | RemoveTagOp(tag: string)

  /** `hasTag(t)`: list membership. */
  predicate HasTag(tags: seq<string>, t: string) {
    t in tags
  }

  /** `addTag(t)`: appends `t`, even when it is already present. */
  function AddTag(tags: seq<string>, t: string): (r: seq<string>)
    ensures |r| == |tags| + 1
    ensures r[..|tags|] == tags && r[|tags|] == t
    ensures HasTag(r, t)
  {
    tags + [t]
  }

  /** `removeTag(t)`: drops every occurrence of `t`; every other tag keeps its
      multiplicity. */
  function RemoveTag(tags: seq<string>, t: string): (r: seq<string>)
    ensures !HasTag(r, t)
    ensures forall x :: x != t ==> (HasTag(r, x) <==> HasTag(tags, x))
    ensures !HasTag(tags, t) ==> r == tags
    decreases |tags|
  {
    if tags == [] then []
    else
      var rest := RemoveTag(tags[1..], t);
      assert tags == [tags[0]] + tags[1..];
      assert forall x :: HasTag(tags, x) <==> x == tags[0] || HasTag(tags[1..], x);
      if tags[0] == t then rest
      else
        assert forall x :: HasTag([tags[0]] + rest, x) <==> x == tags[0] || HasTag(rest, x);
        [tags[0]] + rest
  }

  /** Removal drops every occurrence of `t` and keeps every other tag as many
      times as it occurred. */
  lemma {:induction false} RemoveTagCounts(tags: seq<string>, t: string)
    ensures multiset(RemoveTag(tags, t)) == multiset(tags)[t := 0]
    decreases |tags|
  {
    if tags != [] {
      RemoveTagCounts(tags[1..], t);
      assert tags == [tags[0]] + tags[1..];
      assert multiset(tags) == multiset{tags[0]} + multiset(tags[1..]);
    }
  }

  /** Removal keeps the order of the remaining tags: it distributes over
      concatenation, so each surviving tag stays where its neighbours put it. */
  lemma {:induction false} RemoveTagKeepsOrder(a: seq<string>, b: seq<string>, t: string)
    ensures RemoveTag(a + b, t) == RemoveTag(a, t) + RemoveTag(b, t)
    decreases |a|
  {
    if a == [] {
      assert a + b == b;
    } else {
      assert (a + b)[0] == a[0];
      assert (a + b)[1..] == a[1..] + b;
      RemoveTagKeepsOrder(a[1..], b, t);
      if a[0] != t {
        assert RemoveTag(a, t) == [a[0]] + RemoveTag(a[1..], t);
        assert [a[0]] + (RemoveTag(a[1..], t) + RemoveTag(b, t))
            == ([a[0]] + RemoveTag(a[1..], t)) + RemoveTag(b, t);
      }
    }
  }

  /** Adding a tag and then removing it leaves the same list as removing it
      straight away. */
  lemma RemoveUndoesAdd(tags: seq<string>, t: string)
    ensures RemoveTag(AddTag(tags, t), t) == RemoveTag(tags, t)
  {
    RemoveTagKeepsOrder(tags, [t], t);
  }

  /** The tag operations an activity issued, applied in order. */
  function ApplyTagOps(tags: seq<string>, ops: seq<TagOp>): (r: seq<string>)
    ensures forall x :: HasTag(r, x) ==> HasTag(tags, x) || AddTagOp(x) in ops
    decreases |ops|
  {
    if ops == [] then tags
    else
      var next := match ops[0]
        case AddTagOp(t) => AddTag(tags, t)
        case RemoveTagOp(t) => RemoveTag(tags, t);
      assert forall x :: HasTag(next, x) ==> HasTag(tags, x) || AddTagOp(x) in ops;
      ApplyTagOps(next, ops[1..])
  }
}

=== FILE: traversal.dfy ===
/** The traversal engine: one step runs the current node's activity and either
    suspends the run, moves along the chosen route, or ends the traversal. */
module Traversal {
  import opened Base
  import opened LoopGuard
  import opened LocalStorage
  import opened Tags
  import opened Workflow
  import opened Resolver

  /** How a traversal stops: suspended by the activity (the state has been
      persisted), or finished because the chosen route has no single successor. */
  datatype Halt = Suspended(state: RunState) | Finished(state: RunState)

  datatype Transition = Moved(state: RunState, node: Node) | Halted(halt: Halt)

  /** A step's outcome with the engine's guard and store as it left them. */
  datatype Stepped = Stepped(guard: Guard, store: Store<RunState>, result: Result<Transition, EngineError>)

  datatype Ran = Ran(guard: Guard, store: Store<RunState>, result: Result<Halt, EngineError>)

  /** `pause(state, returnVariable)`: with no state, report `NotStarted` and
      write nothing; otherwise mark the state paused, remember the variable the
      resumed value goes to, and persist it under the run key. */
  function Pause(store: Store<RunState>, key: string, state: Option<RunState>, returnVariable: string)
    : (r: (Result<RunState, SoftError>, Store<RunState>))
    ensures state.None? ==> r.0 == Err(NotStarted) && r.1 == store
    ensures state.Some? ==> r.0.Ok?
    ensures state.Some? ==>
      r.0.value == state.value.(status := Paused, returnVariable := Some(returnVariable))
    ensures state.Some? ==> GetItem(r.1, key) == Some(r.0.value)
    ensures forall k :: k != key ==> GetItem(r.1, k) == GetItem(store, k)
  {
    match state
    case None => (Err(NotStarted), store)
    case Some(st) =>
      var paused := st.(status := Paused, returnVariable := Some(returnVariable));
      (Ok(paused), SetItem(store, key, paused))
  }

  /** `execRet.route` when the activity named a non-empty route, else `'route'`. */
  function SelectedRoute(route: Option<string>): string {
    if route.Some? && route.value != "" then route.value else "route"
  }

  /** The route names the activity is offered, `Object.keys(outputs)`; for a
      computed output map that is the key list of a function, which is empty. */
  function AvailableRoutes(node: Node): set<string> {
    match node.outputs
    case StaticOutputs(routes) => routes.Keys
    case ComputedOutputs(_) => {}
  }

  /** The node's routes as they stand after its activity has run. */
  function OutputsAt(env: Env, node: Node, st: RunState): Wiring
    requires node.id in st.localVars
  {
    match node.outputs
    case StaticOutputs(routes) => routes
    case ComputedOutputs(f) => f(node.outputData, node.inputs, ContextAt(env.ambient, st, node.id))
  }

  /** Whether a route leads to exactly one successor. */
  predicate SingleSuccessor(outputs: Wiring, route: string) {
    route in outputs && |outputs[route]| == 1
  }

  /** The activity's writes: the node's local variables, the run's globals
      and the tag operations issued through the control handle. */
  function ApplyActivity(st: RunState, id: string, act: Activity): (r: RunState)
    ensures r.localVars.Keys == st.localVars.Keys + {id}
    ensures forall k :: k in st.localVars && k != id ==> r.localVars[k] == st.localVars[k]
    ensures r.currentNode == st.currentNode && r.previousNode == st.previousNode
    ensures r.status == st.status && r.key == st.key && r.returnVariable == st.returnVariable
  {
    st.(localVars := st.localVars[id := act.localVars],
        globalVars := act.globalVars,
        tags := ApplyTagOps(st.tags, act.tagOps))
  }

  /** The routing half of a step: advance along the selected route when it has
      exactly one connection, recording where control came from and clearing a
      stale local-variable scope of the successor; otherwise end the traversal
      and leave the state as it is. */
  function Route(env: Env, st: RunState, node: Node, route: Option<string>): (r: Result<Transition, EngineError>)
    requires node.id in st.localVars
    ensures var outs := OutputsAt(env, node, st);
      var sel := SelectedRoute(route);
      && (r.Ok? && r.value.Halted? <==> !SingleSuccessor(outs, sel))
      && (r.Ok? && r.value.Halted? ==> r.value.halt == Finished(st))
      && (r.Err? <==> SingleSuccessor(outs, sel) && outs[sel][0].nodeId !in env.nodes)
      && (r.Ok? && r.value.Moved? ==>
            var target := env.nodes[outs[sel][0].nodeId];
            && r.value.node == target
            && r.value.state.previousNode == st.currentNode
            && r.value.state.currentNode == Some(Ref(target)))
    ensures r.Ok? && r.value.Moved? ==>
      var t := r.value.node.id;
      var st' := r.value.state;
      && st'.globalVars == st.globalVars && st'.tags == st.tags && st'.status == st.status
      && st'.key == st.key && st'.returnVariable == st.returnVariable
      && st'.localVars.Keys == st.localVars.Keys
      && (forall k :: k in st.localVars && k != t ==> st'.localVars[k] == st.localVars[k])
      && (t in st.localVars ==> st'.localVars[t] == map[])
  {
    var outs := OutputsAt(env, node, st);
    var sel := SelectedRoute(route);
    if SingleSuccessor(outs, sel) then
      var c := outs[sel][0];
      if c.nodeId !in env.nodes then Err(MissingNode(c.nodeId))
      else
        var target := env.nodes[c.nodeId];
        var locals := if target.id in st.localVars then st.localVars[target.id := map[]] else st.localVars;
        Ok(Moved(st.(previousNode := st.currentNode, currentNode := Some(Ref(target)), localVars := locals), target))
    else
      Ok(Halted(Finished(st)))
  }

  /** One pass of the loop in `iterateNodes`: resolve the node's inputs, run
      its activity, then suspend (persisting the run) or route. */
  function Step(env: Env, key: string, g: Guard, store: Store<RunState>, st: RunState, node: Node, depth: nat)
    : (s: Stepped)
    ensures s.result.Ok? && s.result.value.Halted? && s.result.value.halt.Suspended? ==>
      var p := s.result.value.halt.state;
      && p.status == Paused && p.returnVariable.Some?
      && p.currentNode == st.currentNode && p.previousNode == st.previousNode
      && s.store == SetItem(store, key, p)
    ensures !(s.result.Ok? && s.result.value.Halted? && s.result.value.halt.Suspended?) ==> s.store == store
    ensures s.result.Ok? && s.result.value.Halted? && s.result.value.halt.Finished? ==>
      var f := s.result.value.halt.state;
      f.currentNode == st.currentNode && f.previousNode == st.previousNode && f.status == st.status
    ensures s.result.Ok? && s.result.value.Moved? ==>
      && s.result.value.state.previousNode == st.currentNode
      && s.result.value.state.currentNode == Some(Ref(s.result.value.node))
      && s.result.value.state.status == st.status
  {
    if node.nodeType !in env.host.nodeTypes then
      Stepped(g, store, Err(MissingNodeType(node.nodeType)))
    else
      var nt := env.host.nodeTypes[node.nodeType];
      var e := ResolveInputs(env, node, nt, g, st, depth, true);
      match e.result
      case Err(err) => Stepped(e.guard, store, Err(err))
      case Ok(res) =>
        var st1 := EnsureLocals(res.state, node.id);
        var act := env.host.executeActivity(node, res.values, nt, ContextAt(env.ambient, st1, node.id),
                                            AvailableRoutes(node));
        var st2 := ApplyActivity(st1, node.id, act);
        match act.effect
        case Suspend(v) =>
          var (paused, store') := Pause(store, key, Some(st2), v);
          Stepped(e.guard, store', Ok(Halted(Suspended(paused.value))))
        case Continue(route) =>
          Stepped(e.guard, store, Route(env, st2, node, route))
  }

  /** `iterateNodes`: steps until the run suspends or finishes. The control
      graph may cycle, so `fuel` bounds the number of steps. Only a suspension
      writes to the store, and it writes the state it returns. */
  function Iterate(env: Env, key: string, g: Guard, store: Store<RunState>, st: RunState, node: Node,
                   fuel: nat, depth: nat): (r: Ran)
    ensures r.result.Ok? && r.result.value.Suspended? ==>
      r.store == SetItem(store, key, r.result.value.state) && r.result.value.state.status == Paused
    ensures !(r.result.Ok? && r.result.value.Suspended?) ==> r.store == store
    ensures r.result.Ok? ==> r.result.value.state.status == st.status || r.result.value.Suspended?
    decreases fuel
  {
    if fuel == 0 then Ran(g, store, Err(FuelExhausted))
    else
      var s := Step(env, key, g, store, st, node, depth);
      match s.result
      case Err(err) => Ran(s.guard, s.store, Err(err))
      case Ok(Halted(h)) => Ran(s.guard, s.store, Ok(h))
      case Ok(Moved(st', next)) => Iterate(env, key, s.guard, s.store, st', next, fuel - 1, depth)
  }
}

=== FILE: workflow.dfy ===
/** The records the engine works on: nodes and their wiring, node types, the
    host application's callbacks, the persisted run state, and the engine's
    errors. Also the root-node lookup. */
module Workflow {
  import opened Base
  import opened LoopGuard
  import opened Tags

  /** One end of a wire: a node and one of its named output ports (for input
      wiring), or the successor node of a route (for output wiring). */
  datatype Connection = Connection(nodeId: string, portName: string)

  /** Port or route name to the ordered connections attached to it. */
  type Wiring = map<string, seq<Connection>>

  /** A declared input port. */
  datatype Port = Port(name: string, portType: string)

  /** What a callback sees besides the node: the caller's ambient context, the
      node's local variables, the run's global variables and a copy of its tags. */
  datatype Context = Context(ambient: Value, localVars: map<string, Value>,
                             globalVars: map<string, Value>, tags: seq<string>)

  /** A node type's input ports: a fixed list, or computed from the node's
      input data and input wiring. */
  datatype InputSpec =
    | StaticInputs(ports: seq<Port>)
    | ComputedInputs(compute: (map<string, Value>, Wiring, Context) -> seq<Port>)

  /** A node's routes: a fixed map, or computed from its output data. */
  datatype OutputSpec =
    | StaticOutputs(routes: Wiring)
    | ComputedOutputs(compute: (Value, Wiring, Context) -> Wiring)

  datatype Node = Node(id: string, nodeType: string, root: bool,
                       inputData: map<string, Value>, outputData: Value,
                       inputs: Wiring, outputs: OutputSpec)

  datatype NodeType = NodeType(inputs: InputSpec)

  /** The `{id, type}` pair a run state records for a node. */
  datatype NodeRef = NodeRef(id: string, nodeType: string)

  function Ref(n: Node): NodeRef {
    NodeRef(n.id, n.nodeType)
  }

  datatype Status = Running | Paused

  datatype RunState = RunState(
    key: string,
    status: Status,
    currentNode: Option<NodeRef>,
    previousNode: Option<NodeRef>,
    localVars: map<string, map<string, Value>>,
    globalVars: map<string, Value>,
    tags: seq<string>,
    returnVariable: Option<string>)

  /** What an activity asks for once it has run: follow a route (the default
      route when none is named), or suspend the run until a value for
      `returnVariable` is supplied. */
  datatype Effect = Continue(route: Option<string>) | Suspend(returnVariable: string)

  /** An activity's outcome: its effect, the node's and the run's variables as
      it left them, and the tag operations it issued through the control handle. */
  datatype Activity = Activity(effect: Effect, localVars: map<string, Value>,
                               globalVars: map<string, Value>, tagOps: seq<TagOp>)

  /** The embedding application: the node-type registry and its three callbacks. */
  datatype Host = Host(
    nodeTypes: map<string, NodeType>,
    resolveInputControls: (string, Value, Value) -> Value,
    fireNodeFunction: (Node, map<string, Value>, NodeType, Context) -> map<string, Value>,
    executeActivity: (Node, map<string, Value>, NodeType, Context, set<string>) -> Activity)

  /** Errors that abort a call (thrown in the source). `FuelExhausted` marks a
      recursion the model cut short; it is not an error of the source. */
  datatype EngineError =
    | LoopLimit(loopError: LoopError)
    | MultipleRoots
    | MissingNode(id: string)
    | MissingNodeType(typeTag: string)
    | NoCurrentNode
    | FuelExhausted

  /** Misuse of the lifecycle operations, reported without throwing. */
  datatype SoftError = AlreadyStarted | NotStarted | NoState | NotPaused | NoRoot

  /** The run state `start` and `play` create for a new run. */
  function FreshState(key: string): (st: RunState)
    ensures st.status == Running && st.key == key
    ensures st.currentNode.None? && st.previousNode.None?
    ensures st.localVars == map[] && st.globalVars == map[] && st.tags == []
  {
    RunState(key, Running, None, None, map[], map[], [], None)
  }

  /** Create the node's local-variable scope when it has none yet; an existing
      scope, even an empty one, is kept. */
  function EnsureLocals(st: RunState, id: string): (r: RunState)
    ensures id in r.localVars
    ensures r == st.(localVars := r.localVars)
    ensures r.localVars.Keys == st.localVars.Keys + {id}
    ensures forall k :: k in st.localVars ==> r.localVars[k] == st.localVars[k]
    ensures id !in st.localVars ==> r.localVars[id] == map[]
  {
    if id in st.localVars then st else st.(localVars := st.localVars[id := map[]])
  }

  /** The context handed to a callback running for node `id`. */
  function ContextAt(ambient: Value, st: RunState, id: string): Context
    requires id in st.localVars
  {
    Context(ambient, st.localVars[id], st.globalVars, st.tags)
  }

  /** The keys of the nodes flagged as root. */
  function RootKeys(nodes: map<string, Node>): set<string> {
    set k | k in nodes && nodes[k].root
  }

  /** `getRootNode(nodes)`: an error when more than one node is flagged root,
      otherwise the one root node, or nothing when there is none. */
  function GetRootNode(nodes: map<string, Node>): (r: Result<Option<Node>, EngineError>)
    ensures r.Err? <==> |RootKeys(nodes)| > 1
    ensures r.Err? ==> r.error == MultipleRoots
    ensures r.Ok? && r.value.None? <==> RootKeys(nodes) == {}
    ensures r.Ok? && r.value.Some? ==>
      exists k :: RootKeys(nodes) == {k} && r.value.value == nodes[k]
  {
    var roots := RootKeys(nodes);
    if |roots| > 1 then Err(MultipleRoots)
    else if roots == {} then Ok(None)
    else
      var k :| k in roots;
      assert roots == {k} by {
        assert |roots - {k}| == 0;
        assert roots - {k} == {};
      }
      Ok(Some(nodes[k]))
  }
}
